=== FILE: README.md ===
# Substack archives downloader — a Dafny model of its cache, loader and download gate

The downloader signs in to a Substack publication, grows the publication's
archive page by scrolling it to the bottom until enough article previews are
visible, stores each preview as a `(date, title, url)` record in an in-memory
cache, and exports the records selected by a query as PDFs. This project models
the logic of `downloaders/substack_archives_downloader.py` that decides *what* is
loaded, cached, selected and exported; the browser, the HTML parser and the file
system are abstracted away.

Modules (one file each):

- `Errors` (`errors.dfy`): the failures the downloader reports, with `Result` and
  `Outcome` types. Python exceptions and failed `assert`s become these values.
- `ArticleCache` (`article_cache.dfy`): the `Cache` class — append, size and
  emptiness, exact-date and date-range filters, index access with Python's
  negative indices, first/last record, top-k prefix. It also defines the
  newest-first ordering the cache relies on but never checks. Proved on top of it:
  - the range filter keeps stored order;
  - on a newest-first cache the range result is one contiguous slice;
  - the exact-date filter is the one-day range;
  - the top-k answer holds the k newest records.
- `Loader` (`loader.dfy`): the page is an observation `Page(initialHeight,
  scrolls)`. Each `Snapshot` in `scrolls` gives the content height and the
  visible, already normalised previews after one scroll to the bottom. From this:
  - the count-driven and date-driven scroll loops, each with its stop condition;
  - the step that appends every visible preview to the cache;
  - the two load guards.
- `Downloader` (`downloader.dfy`): credentials, the outcome of the sign-in
  protocol, the download gate, and the two download entry points. What an entry
  point exports is the list of records it hands to the PDF step.

Behaviours of the code that the model keeps as written and proves:

- The loader appends **every** visible preview, including records already cached.
  The page is re-opened from the top before scrolling, so a second load into a
  non-empty cache stores the cached records again. The cache then stays
  newest-first only if all its records share one date (`Loader.LoadKReappendsCachedRecords`).
- The count loop updates its "height before scrolling" after every scroll. The
  date loop never does: it compares every new height with the height right after
  navigation. The page may grow once and then stop growing while no visible
  preview is older than the target. The count loop stops at the next scroll, but
  the date loop never stops (`Loader.DateLoopMissesSettledPage`).
- The code runs its scroll loops unboundedly. The model observes a finite number
  of scrolls. Running out of observations before a stop condition holds is
  reported as `ScrollUnbounded`, which stands for the loop that does not return.

Further behaviours of the code a caller might not expect, kept as written:

- The top-k query returns fewer than k records when fewer are cached. It is a
  list slice; nothing requires `k <= size`.
- The cache may hold the same record more than once; see above.
- Index access accepts negative indices, counting from the end. An empty cache or
  an index outside `[-size, size)` is an `IndexError` in the code. The model
  reports it as `EmptyCache` for the first/last record and as `IndexOutOfRange`
  for index access.
- An inverted date range and a top-k request with `k < 1` fail `assert`
  statements in the code. The model reports them as `InvalidRange` and
  `InvalidCount`.
- Credentials can be loaded again at any time; the last load wins.

## Model

| member | source | states |
|---|---|---|
| ArticleCache.NewCache | downloaders/substack_archives_downloader.py:33-36 | a new cache keeps the validated root URL, its archive URL is exactly the root URL followed by "/archive", and it holds no records |
| ArticleCache.Size | downloaders/substack_archives_downloader.py:45-46 | the size is the number of stored records |
| ArticleCache.Append | downloaders/substack_archives_downloader.py:40-43 | the record is stored at the tail; the size grows by one; all earlier records are unchanged |
| ArticleCache.AppendKeepsNewestFirst | downloaders/substack_archives_downloader.py:40-43 | appending a record no newer than the current last record keeps the cache newest-first |
| ArticleCache.IsEmpty | downloaders/substack_archives_downloader.py:45-49 | the cache is empty exactly when its size is 0 |
| ArticleCache.MatchingDate | downloaders/substack_archives_downloader.py:51-57 | a record is in the result exactly when it is cached and has the given date; the result is no longer than the cache |
| ArticleCache.ByDate | downloaders/substack_archives_downloader.py:51-57 | the exact-date query returns exactly the cached records with that date |
| ArticleCache.MatchingDateIsPointRange | downloaders/substack_archives_downloader.py:51-68 | the exact-date filter equals the range filter on [date, date], order included |
| ArticleCache.WithinRange | downloaders/substack_archives_downloader.py:64-68 | a record is in the result exactly when it is cached and start <= date <= end |
| ArticleCache.ByDateRange | downloaders/substack_archives_downloader.py:59-68 | an inverted range fails with InvalidRange; otherwise the result holds exactly the cached records dated within the range |
| ArticleCache.WithinRangeCounts | downloaders/substack_archives_downloader.py:64-68 | the range result holds each record dated within the range exactly as many times as the cache does, and no other record |
| ArticleCache.MatchingDateCounts | downloaders/substack_archives_downloader.py:51-57 | the exact-date result holds each record of that date exactly as many times as the cache does, and no other record |
| ArticleCache.WithinRangeAppend | downloaders/substack_archives_downloader.py:64-68 | filtering a concatenation concatenates the filtered parts, so the result keeps stored order |
| ArticleCache.WithinRangeKeepsNewestFirst | downloaders/substack_archives_downloader.py:59-68 | filtering a newest-first list gives a newest-first list |
| ArticleCache.WithinRangeIsSlice | downloaders/substack_archives_downloader.py:59-68 | on a newest-first cache the range result is the contiguous slice between the records newer than end and those older than start, which is what a binary search for the bounds would need |
| ArticleCache.ByIndex | downloaders/substack_archives_downloader.py:70-71 | succeeds exactly for -size <= idx < size; a non-negative index counts from the front, a negative one from the end |
| ArticleCache.Latest | downloaders/substack_archives_downloader.py:73-74 | fails with EmptyCache exactly on an empty cache; otherwise returns a cached record |
| ArticleCache.Earliest | downloaders/substack_archives_downloader.py:76-79 | fails with EmptyCache exactly on an empty cache; otherwise returns a cached record |
| ArticleCache.EndsAreIndexZeroAndMinusOne | downloaders/substack_archives_downloader.py:70-79 | the cache is empty exactly when neither end can be read; the first and last records are index 0 and index -1 |
| ArticleCache.LatestAndEarliestBoundDates | downloaders/substack_archives_downloader.py:73-79 | on a newest-first cache, every cached date lies between the last record's date and the first record's date |
| ArticleCache.MostRecentK | downloaders/substack_archives_downloader.py:81-84 | k < 1 fails with InvalidCount; otherwise the result is the first min(k, size) records, unchanged |
| ArticleCache.MostRecentKAreNewest | downloaders/substack_archives_downloader.py:81-84 | on a newest-first cache, no record left out of the top-k answer is newer than a returned one |
| ArticleCache.SampleArchiveRange | downloaders/substack_archives_downloader.py:59-68 | on the archive [(20240310, A), (20240305, B), (20240301, C)], the range [20240302, 20240309] selects exactly B |
| ArticleCache.SampleArchiveEnds | downloaders/substack_archives_downloader.py:76-84 | that archive is newest-first and its top-2 is [A, B]; an empty cache has no earliest record |
| ArticleCache.SampleArchiveSameDate | downloaders/substack_archives_downloader.py:51-57 | two records stored with the same date are both returned for that date, in stored order |
| Loader.ScrollUntilKFrom | downloaders/substack_archives_downloader.py:169-176 | from scroll i, the loop stops at the first scroll whose height equals the height recorded before it (the previous scroll's, or the initial one) or that shows at least k previews; it is unbounded exactly when no observed scroll does |
| Loader.CountLoopStops | downloaders/substack_archives_downloader.py:174 | the count loop's stop test: the height did not change, or at least k previews are visible |
| Loader.ScrollUntilK | downloaders/substack_archives_downloader.py:166-176 | the count loop stops at the first scroll that meets its stop condition, comparing each height with the previous scroll's height |
| Loader.ScrollUntilDateFrom | downloaders/substack_archives_downloader.py:181-192 | from scroll i, the loop stops at the first scroll whose height equals the initial height or whose last preview is strictly older than the target. If the first scroll at which it does not go on shows no previews, it fails with NoArticlePreview. It is unbounded exactly when every observed scroll lets it go on |
| Loader.DateLoopStops | downloaders/substack_archives_downloader.py:191 | the date loop's stop test: the height did not change, or the target date is strictly later than the last visible preview's date |
| Loader.ScrollUntilDate | downloaders/substack_archives_downloader.py:178-192 | the date loop stops at the first scroll meeting its condition, always comparing with the height right after navigation |
| Loader.ScrollUntilDateFromFindsFirstStop | downloaders/substack_archives_downloader.py:181-192 | started at or before the first scroll where the date loop stops, the loop returns exactly that scroll |
| Loader.ScrollUntilDateIsFirstStop | downloaders/substack_archives_downloader.py:178-192 | the date loop returns scroll n exactly when every earlier scroll lets it go on and scroll n shows a preview and meets the stop condition |
| Loader.AppendAll | downloaders/substack_archives_downloader.py:201-210 | appending the previews one by one yields the old records followed by all previews in presented order, with no deduplication |
| Loader.LoadAllVisible | downloaders/substack_archives_downloader.py:201-210 | the cache keeps its records as a prefix and gains every visible preview after them |
| Loader.AppendAllKeepsNewestFirst | downloaders/substack_archives_downloader.py:194-210 | a newest-first batch no newer than the cache's last record keeps the cache newest-first |
| Loader.LoadK | downloaders/substack_archives_downloader.py:212-216 | when size >= k: no scrolling, cache unchanged. Otherwise the previews visible where the count loop stopped are appended, and the scroll count is that stop. The load fails exactly when no observed scroll stops the loop. A load changes only the stored records; the root and archive URLs stay as they were |
| Loader.LoadKIntoEmptyCache | downloaders/substack_archives_downloader.py:212-216 | loading into an empty cache stores exactly the stopping snapshot's previews, so a newest-first page gives a newest-first cache |
| Loader.LoadKIsIdempotentOnceFilled | downloaders/substack_archives_downloader.py:212-214 | once a load leaves at least k records, a second load for k does nothing whatever the page shows |
| Loader.LoadKReappendsCachedRecords | downloaders/substack_archives_downloader.py:201-216 | a reload into a non-empty cache whose page re-presents the cached records stores them twice; the result is newest-first only if all cached records share one date |
| Loader.LoadAfterStartDate | downloaders/substack_archives_downloader.py:218-226 | no-op exactly when the cache is non-empty and its last record is strictly older than start. Otherwise a successful load scrolls at least once, stops at the date loop's first stop, and appends the previews visible there. A load changes only the stored records; the root and archive URLs stay as they were. A failed load reports ScrollUnbounded exactly when every observed scroll lets the date loop go on, and NoArticlePreview otherwise |
| Loader.LoadAfterStartDateReportsLoopError | downloaders/substack_archives_downloader.py:181-192 | a failed date load carries exactly the error the date loop produced |
| Loader.LoadAfterStartDateOkIffFirstStop | downloaders/substack_archives_downloader.py:218-226 | when the guard does not short-circuit, the date load succeeds exactly when the date loop has a first stop among the observed scrolls |
| Loader.LoadAfterStartDateAtFirstStop | downloaders/substack_archives_downloader.py:218-226 | when the guard does not short-circuit and the date loop first stops at scroll n, the load takes n + 1 scrolls and appends exactly the previews visible there |
| Loader.LoadAfterStartDateSecondCall | downloaders/substack_archives_downloader.py:218-226 | after such a scrolling load, a second load with the same start is a no-op exactly when the last preview at the stopping scroll is older than start |
| Loader.DateLoopMissesSettledPage | downloaders/substack_archives_downloader.py:166-192 | on a page that grows once and then keeps its height, the count loop stops at the second scroll. The date loop never stops while no last preview is older than the target |
| Downloader.NoCredentials | downloaders/substack_archives_downloader.py:19-22 | fresh credentials are empty and not marked as loaded |
| Downloader.SetCredentials | downloaders/substack_archives_downloader.py:27-30 | setting credentials stores both strings and marks them loaded |
| Downloader.NewDownloader | downloaders/substack_archives_downloader.py:101-107 | a new downloader holds empty, unloaded credentials, is not signed in, and has the fresh cache for the validated URL, whose archive URL is that URL followed by "/archive" |
| Downloader.LoadCredentials | downloaders/substack_archives_downloader.py:109-113 | loading credentials always reports success, marks them loaded, and changes nothing else |
| Downloader.SignIn | downloaders/substack_archives_downloader.py:115-160 | the signed-in flag becomes the returned value and nothing else changes. Sign-in succeeds exactly when all four waits succeed and credentials are loaded, so it never succeeds without credentials |
| Downloader.ReadyToDownload | downloaders/substack_archives_downloader.py:228-234 | fails with CredentialsNotLoaded exactly when credentials were never loaded. Otherwise fails with NotSignedIn exactly when not signed in. Passes exactly when both hold |
| Downloader.DownloadKMostRecent | downloaders/substack_archives_downloader.py:236-240 | a gate failure changes nothing and exports nothing. Success requires k >= 1 and a completed load. The new state is the old one with the cache LoadK produced, and the export is the first min(k, size) records of that cache. A failed load is reported with its own error. Any failure leaves the state unchanged |
| Downloader.DownloadDateRange | downloaders/substack_archives_downloader.py:242-249 | a gate failure changes nothing; start > end then fails with InvalidRange before loading. On success the new state is the old one with the cache LoadAfterStartDate produced, and the export holds exactly that cache's records within [start, end], in stored order. A failed load is reported with its own error. Any failure leaves the state unchanged |
| Downloader.DateRangeExportsEveryLoadedMatch | downloaders/substack_archives_downloader.py:246-248 | a successful date-range download exports each loaded record within the range as many times as the loaded cache holds it, and no other record |
| Downloader.SessionLifecycle | downloaders/substack_archives_downloader.py:228-249 | a new downloader refuses both downloads with CredentialsNotLoaded and cannot sign in. With credentials but no sign-in it refuses with NotSignedIn. A fully successful sign-in opens the gate |
| Downloader.FailedSignInClosesGate | downloaders/substack_archives_downloader.py:115-119 | a sign-in whose last wait fails closes the gate, even after an earlier success |
| Downloader.RepeatDownloadKMostRecent | downloaders/substack_archives_downloader.py:236-240 | repeating a top-k download once k records are cached returns the same state and exports |
| Downloader.DateRangeFromEmptyCacheIsOrdered | downloaders/substack_archives_downloader.py:242-249 | with the gate open, an empty cache and a page whose date loop first stops at a newest-first scroll, the date-range download succeeds, caches exactly that scroll's previews, and exports a newest-first contiguous slice of them |

## Left out

- Loader.LoadK: the scroll loop and the extraction step read the page's previews separately, and content may still be loading in between. The model assumes both reads see the same previews, those of the snapshot where the loop stopped. The same assumption holds for `Loader.LoadAfterStartDate` and for every contract that says the load appends the previews visible at the stop.
- Browser driver calls (navigation, element lookup, clicks, script execution, `time.sleep`): replaced by the `Page` observation for scrolling and by the `SignInWaits` outcomes for sign-in.
- Element lookups that raise because an element is missing (for example the menu button in `sign_in`): the model assumes every element it needs can be found.
- HTML extraction and `helper.process_date`: previews arrive as already normalised `(date, title, url)` records, so date parse errors are not modelled. `helper` is not part of this model.
- `helper.input_url_validation`: the validated URL is a parameter of `NewCache` and `NewDownloader`.
- `convert_article_tuples_to_pdfs`: the model records only which records are handed to it. The output file name (`helper.clean_filename`) and the skip of records whose file already exists are left out, because both depend on the file system.
- `write_to_local_file_in_output_folder`, `write_to_temp_folder_and_send_to_output_folder`: file system, base64 decoding and the browser's print channel.
- `ElementSelectors`: constant selector strings with no behaviour.
- `sign_out`: an empty stub.
- `get_credentials`: plain field access on `Credentials`.
- Diagnostic `print` calls.
- Loader.ScrollUntilK: only a finite number of scrolls is observed. Where the code scrolls forever, the model stops with `ScrollUnbounded`, so the model cannot tell a never-ending page from one observed too briefly. The same holds for `Loader.ScrollUntilDate` and both download entry points.

=== FILE: article_cache.dfy ===
/**
 The article cache: an append-only list of (date, title, url) records that the
 downloader fills newest-first and answers date, range, index and top-k queries
 from by linear scan.
 */
module ArticleCache {
  import opened Errors

  /** One archived article; `date` is the sortable integer key (e.g. YYYYMMDD). */
  datatype ArticleTuple = ArticleTuple(date: int, title: string, url: string)

  /** The cache of one archive: its root URL, the archive listing URL derived from
      it, and the records in insertion order. */
  datatype Cache = Cache(rootUrl: string, archiveUrl: string, articles: seq<ArticleTuple>)

  const ArchivePath := "/archive"

  function Min(a: int, b: int): int
  {
    if a <= b then a else b
  }

  /** The reverse-chronological invariant the queries rely on and the cache never checks. */
  ghost predicate NewestFirst(s: seq<ArticleTuple>)
  {
    forall i, j :: 0 <= i < j < |s| ==> s[i].date >= s[j].date
  }

  /** A fresh cache for an already validated root URL. */
  function NewCache(validatedUrl: string): (c: Cache)
    ensures c.rootUrl == validatedUrl
    ensures c.archiveUrl == validatedUrl + ArchivePath
    ensures IsEmpty(c)
  {
    Cache(validatedUrl, validatedUrl + ArchivePath, [])
  }

  function Size(c: Cache): nat
  {
    |c.articles|
  }

  function IsEmpty(c: Cache): (r: bool)
    ensures r <==> Size(c) == 0
  {
    |c.articles| == 0
  }

  /** Stores the record at the tail; no ordering check is made. */
  function Append(c: Cache, date: int, title: string, url: string): (r: Cache)
    ensures Size(r) == Size(c) + 1
    ensures r.articles[..Size(c)] == c.articles
    ensures r.articles[Size(c)] == ArticleTuple(date, title, url)
    ensures r.rootUrl == c.rootUrl && r.archiveUrl == c.archiveUrl
  {
    c.(articles := c.articles + [ArticleTuple(date, title, url)])
  }

  /** The records whose date equals `date`, in stored order. */
  function MatchingDate(s: seq<ArticleTuple>, date: int): (r: seq<ArticleTuple>)
    ensures forall x :: x in r <==> x in s && x.date == date
    ensures |r| <= |s|
  {
    if s == [] then []
    else (if s[0].date == date then [s[0]] else []) + MatchingDate(s[1..], date)
  }

  /** The records whose date lies in [start, end], in stored order. */
  function WithinRange(s: seq<ArticleTuple>, start: int, end: int): (r: seq<ArticleTuple>)
    ensures forall x :: x in r <==> x in s && start <= x.date <= end
    ensures |r| <= |s|
  {
    if s == [] then []
    else (if start <= s[0].date <= end then [s[0]] else []) + WithinRange(s[1..], start, end)
  }

  function ByDate(c: Cache, date: int): (r: seq<ArticleTuple>)
    ensures forall x :: x in r <==> x in c.articles && x.date == date
  {
    MatchingDate(c.articles, date)
  }

  /** Range query; a range whose end precedes its start is refused. */
  function ByDateRange(c: Cache, start: int, end: int): (r: Result<seq<ArticleTuple>>)
    ensures r.Ok? <==> end >= start
    ensures r.Err? ==> r.error == InvalidRange
    ensures r.Ok? ==> forall x :: x in r.value <==> x in c.articles && start <= x.date <= end
  {
    if end >= start then Ok(WithinRange(c.articles, start, end)) else Err(InvalidRange)
  }

  /** Positional access with Python's list indexing: a negative index counts back
      from the end, and -1 is the last record. */
  function ByIndex(c: Cache, idx: int): (r: Result<ArticleTuple>)
    ensures r.Ok? <==> -(Size(c) as int) <= idx < Size(c)
    ensures r.Err? ==> r.error == IndexOutOfRange
    ensures r.Ok? && idx >= 0 ==> r.value == c.articles[idx]
    ensures r.Ok? && idx < 0 ==> r.value == c.articles[Size(c) + idx]
  {
    if 0 <= idx < |c.articles| then Ok(c.articles[idx])
    else if -|c.articles| <= idx < 0 then Ok(c.articles[|c.articles| + idx])
    else Err(IndexOutOfRange)
  }

  /** The first stored record, the newest under the ordering invariant. */
  function Latest(c: Cache): (r: Result<ArticleTuple>)
    ensures r.Ok? <==> !IsEmpty(c)
    ensures r.Err? ==> r.error == EmptyCache
    ensures r.Ok? ==> r.value in c.articles
  {
    if |c.articles| == 0 then Err(EmptyCache) else Ok(c.articles[0])
  }

  /** The last stored record, the oldest under the ordering invariant. */
  function Earliest(c: Cache): (r: Result<ArticleTuple>)
    ensures r.Ok? <==> !IsEmpty(c)
    ensures r.Err? ==> r.error == EmptyCache
    ensures r.Ok? ==> r.value in c.articles
  {
    if |c.articles| == 0 then Err(EmptyCache) else Ok(c.articles[|c.articles| - 1])
  }

  /** The first k stored records (all of them when fewer are stored); k < 1 is refused. */
  function MostRecentK(c: Cache, k: int): (r: Result<seq<ArticleTuple>>)
    ensures r.Ok? <==> k >= 1
    ensures r.Err? ==> r.error == InvalidCount
    ensures r.Ok? ==> |r.value| == Min(k, Size(c))
    ensures r.Ok? ==> forall i :: 0 <= i < |r.value| ==> r.value[i] == c.articles[i]
  {
    if k >= 1 then Ok(c.articles[..Min(k, |c.articles|)]) else Err(InvalidCount)
  }

  /** Length of the longest prefix of `s` whose dates are all later than `date`. */
  function LeadingNewerThan(s: seq<ArticleTuple>, date: int): (n: nat)
    ensures n <= |s|
    ensures forall i :: 0 <= i < n ==> s[i].date > date
    ensures n < |s| ==> s[n].date <= date
  {
    if s == [] || s[0].date <= date then 0 else 1 + LeadingNewerThan(s[1..], date)
  }

  // ---------------------------------------------------------------------------
  // Properties of the cache
  // ---------------------------------------------------------------------------

  /** Two newest-first lists whose junction is ordered concatenate to a newest-first list. */
  lemma NewestFirstConcat(a: seq<ArticleTuple>, b: seq<ArticleTuple>)
    requires NewestFirst(a) && NewestFirst(b)
    requires a == [] || b == [] || a[|a| - 1].date >= b[0].date
    ensures NewestFirst(a + b)
  {
    var r := a + b;
    forall i, j | 0 <= i < j < |r|
      ensures r[i].date >= r[j].date
    {
      if j < |a| {
        assert r[i] == a[i] && r[j] == a[j];
      } else if |a| <= i {
        assert r[i] == b[i - |a|] && r[j] == b[j - |a|];
      } else {
        assert r[i] == a[i] && r[j] == b[j - |a|];
        assert a[i].date >= a[|a| - 1].date || i == |a| - 1;
        assert b[0].date >= b[j - |a|].date || j == |a|;
      }
    }
  }

  /** Appending a record no newer than the current tail keeps the cache newest-first. */
  lemma AppendKeepsNewestFirst(c: Cache, date: int, title: string, url: string)
    requires NewestFirst(c.articles)
    requires IsEmpty(c) || c.articles[Size(c) - 1].date >= date
    ensures NewestFirst(Append(c, date, title, url).articles)
  {
    var x := ArticleTuple(date, title, url);
    assert Append(c, date, title, url).articles == c.articles + [x];
    NewestFirstConcat(c.articles, [x]);
  }

  /** On a newest-first cache the first record carries the latest date and the last
      record the earliest. */
  lemma LatestAndEarliestBoundDates(c: Cache)
    requires NewestFirst(c.articles)
    requires !IsEmpty(c)
    ensures forall x :: x in c.articles ==> Earliest(c).value.date <= x.date <= Latest(c).value.date
  {
    forall x | x in c.articles
      ensures Earliest(c).value.date <= x.date <= Latest(c).value.date
    {
      var i :| 0 <= i < |c.articles| && c.articles[i] == x;
      if 0 < i {
        assert c.articles[0].date >= c.articles[i].date;
      }
      if i < |c.articles| - 1 {
        assert c.articles[i].date >= c.articles[|c.articles| - 1].date;
      }
    }
  }

  /** The cache is empty exactly when neither end can be read, and the ends are the
      positions 0 and -1 of index access. */
  lemma EndsAreIndexZeroAndMinusOne(c: Cache)
    ensures IsEmpty(c) <==> Latest(c).Err? && Earliest(c).Err?
    ensures !IsEmpty(c) ==> Latest(c) == ByIndex(c, 0) && Earliest(c) == ByIndex(c, -1)
  {
  }

  /** The range filter distributes over concatenation: it keeps stored order. */
  lemma {:induction false} WithinRangeAppend(a: seq<ArticleTuple>, b: seq<ArticleTuple>, start: int, end: int)
    ensures WithinRange(a + b, start, end) == WithinRange(a, start, end) + WithinRange(b, start, end)
    decreases |a|
  {
    if a == [] {
      assert a + b == b;
    } else {
      assert (a + b)[1..] == a[1..] + b;
      WithinRangeAppend(a[1..], b, start, end);
    }
  }

  /** The exact-date filter is the range filter on the one-day range [date, date]. */
  lemma {:induction false} MatchingDateIsPointRange(s: seq<ArticleTuple>, date: int)
    ensures MatchingDate(s, date) == WithinRange(s, date, date)
    decreases |s|
  {
    if s != [] {
      MatchingDateIsPointRange(s[1..], date);
    }
  }

  /** The range filter keeps every matching record as many times as it is stored
      and drops every other record: together with WithinRangeAppend, the result is
      exactly the matching records in stored order. */
  lemma {:induction false} WithinRangeCounts(s: seq<ArticleTuple>, start: int, end: int)
    ensures forall x ::
      multiset(WithinRange(s, start, end))[x] == if start <= x.date <= end then multiset(s)[x] else 0
    decreases |s|
  {
    if s != [] {
      WithinRangeCounts(s[1..], start, end);
      assert s == [s[0]] + s[1..];
      assert multiset(s) == multiset([s[0]]) + multiset(s[1..]);
      if start <= s[0].date <= end {
        WithinRangeKeepsHead(s, start, end);
      } else {
        WithinRangeSkipsHead(s, start, end);
      }
    }
  }

  /** The exact-date filter keeps every record of that date as many times as it is
      stored and drops every other record. */
  lemma MatchingDateCounts(s: seq<ArticleTuple>, date: int)
    ensures forall x ::
      multiset(MatchingDate(s, date))[x] == if x.date == date then multiset(s)[x] else 0
  {
    MatchingDateIsPointRange(s, date);
    WithinRangeCounts(s, date, date);
  }

  /** Dropping the head of a newest-first list leaves a newest-first list whose
      dates are bounded by the head's. */
  lemma NewestFirstTail(s: seq<ArticleTuple>)
    requires NewestFirst(s)
    requires s != []
    ensures NewestFirst(s[1..])
    ensures s[1..] != [] ==> s[1..][0].date <= s[0].date
    ensures forall y :: y in s[1..] ==> y.date <= s[0].date
  {
    var tail := s[1..];
    forall i, j | 0 <= i < j < |tail|
      ensures tail[i].date >= tail[j].date
    {
      assert tail[i] == s[i + 1] && tail[j] == s[j + 1];
    }
    forall y | y in tail
      ensures y.date <= s[0].date
    {
      var m :| 0 <= m < |tail| && tail[m] == y;
      assert s[m + 1] == y;
    }
  }

  /** A record no newer than any of a newest-first list can head it. */
  lemma NewestFirstCons(x: ArticleTuple, rest: seq<ArticleTuple>)
    requires NewestFirst(rest)
    requires forall y :: y in rest ==> y.date <= x.date
    ensures NewestFirst([x] + rest)
  {
    var r := [x] + rest;
    forall i, j | 0 <= i < j < |r|
      ensures r[i].date >= r[j].date
    {
      assert r[j] == rest[j - 1];
      if i == 0 {
        assert rest[j - 1] in rest;
      } else {
        assert r[i] == rest[i - 1];
      }
    }
  }

  /** Filtering a newest-first list yields a newest-first list. */
  lemma {:induction false} WithinRangeKeepsNewestFirst(s: seq<ArticleTuple>, start: int, end: int)
    requires NewestFirst(s)
    ensures NewestFirst(WithinRange(s, start, end))
    decreases |s|
  {
    if s != [] {
      NewestFirstTail(s);
      WithinRangeKeepsNewestFirst(s[1..], start, end);
      if start <= s[0].date <= end {
        WithinRangeKeepsHead(s, start, end);
        NewestFirstCons(s[0], WithinRange(s[1..], start, end));
      } else {
        WithinRangeSkipsHead(s, start, end);
      }
    }
  }

  /** On a newest-first cache the range result is one contiguous slice: it starts
      after the records newer than `end` and stops at the first record older than
      `start`. This is what would make a binary search for the bounds correct. */
  lemma {:induction false} WithinRangeIsSlice(s: seq<ArticleTuple>, start: int, end: int)
    requires NewestFirst(s)
    requires start <= end
    ensures LeadingNewerThan(s, end) <= LeadingNewerThan(s, start - 1)
    ensures WithinRange(s, start, end) == s[LeadingNewerThan(s, end)..LeadingNewerThan(s, start - 1)]
    decreases |s|
  {
    if s != [] {
      var tail := s[1..];
      NewestFirstTail(s);
      WithinRangeIsSlice(tail, start, end);
      SliceStep(s, start, end);
    }
  }

  /** One step of WithinRangeIsSlice: the slice of `s` in terms of the slice of its
      tail, by where the head's date falls. */
  lemma SliceStep(s: seq<ArticleTuple>, start: int, end: int)
    requires s != []
    requires start <= end
    requires s[1..] != [] ==> s[1..][0].date <= s[0].date
    requires LeadingNewerThan(s[1..], end) <= LeadingNewerThan(s[1..], start - 1)
    requires WithinRange(s[1..], start, end)
      == s[1..][LeadingNewerThan(s[1..], end)..LeadingNewerThan(s[1..], start - 1)]
    ensures LeadingNewerThan(s, end) <= LeadingNewerThan(s, start - 1)
    ensures WithinRange(s, start, end) == s[LeadingNewerThan(s, end)..LeadingNewerThan(s, start - 1)]
  {
    if s[0].date > end {
      SliceStepNewer(s, start, end);
    } else if s[0].date >= start {
      SliceStepInside(s, start, end);
    } else {
      SliceStepOlder(s, start, end);
    }
  }

  lemma SliceStepNewer(s: seq<ArticleTuple>, start: int, end: int)
    requires s != [] && start <= end && s[0].date > end
    requires LeadingNewerThan(s[1..], end) <= LeadingNewerThan(s[1..], start - 1)
    requires WithinRange(s[1..], start, end)
      == s[1..][LeadingNewerThan(s[1..], end)..LeadingNewerThan(s[1..], start - 1)]
    ensures LeadingNewerThan(s, end) <= LeadingNewerThan(s, start - 1)
    ensures WithinRange(s, start, end) == s[LeadingNewerThan(s, end)..LeadingNewerThan(s, start - 1)]
  {
    var a, b := LeadingNewerThan(s[1..], end), LeadingNewerThan(s[1..], start - 1);
    LeadingNewerStep(s, end);
    LeadingNewerStep(s, start - 1);
    WithinRangeSkipsHead(s, start, end);
    SliceOfTail(s, a, b);
  }

  lemma LeadingNewerStep(s: seq<ArticleTuple>, date: int)
    requires s != [] && s[0].date > date
    ensures LeadingNewerThan(s, date) == 1 + LeadingNewerThan(s[1..], date)
  {
  }

  lemma WithinRangeSkipsHead(s: seq<ArticleTuple>, start: int, end: int)
    requires s != [] && !(start <= s[0].date <= end)
    ensures WithinRange(s, start, end) == WithinRange(s[1..], start, end)
  {
  }

  lemma SliceStepInside(s: seq<ArticleTuple>, start: int, end: int)
    requires s != [] && start <= s[0].date <= end
    requires s[1..] != [] ==> s[1..][0].date <= s[0].date
    requires WithinRange(s[1..], start, end)
      == s[1..][LeadingNewerThan(s[1..], end)..LeadingNewerThan(s[1..], start - 1)]
    ensures LeadingNewerThan(s, end) <= LeadingNewerThan(s, start - 1)
    ensures WithinRange(s, start, end) == s[LeadingNewerThan(s, end)..LeadingNewerThan(s, start - 1)]
  {
    var b := LeadingNewerThan(s[1..], start - 1);
    WithinRangeKeepsHead(s, start, end);
    LeadingNewerZero(s, end);
    if s[1..] != [] {
      LeadingNewerZero(s[1..], end);
    }
    LeadingNewerStep(s, start - 1);
    PrefixOfTail(s, b);
  }

  lemma SliceStepOlder(s: seq<ArticleTuple>, start: int, end: int)
    requires s != [] && start <= end && s[0].date < start
    requires s[1..] != [] ==> s[1..][0].date <= s[0].date
    requires WithinRange(s[1..], start, end)
      == s[1..][LeadingNewerThan(s[1..], end)..LeadingNewerThan(s[1..], start - 1)]
    ensures LeadingNewerThan(s, end) <= LeadingNewerThan(s, start - 1)
    ensures WithinRange(s, start, end) == s[LeadingNewerThan(s, end)..LeadingNewerThan(s, start - 1)]
  {
    WithinRangeSkipsHead(s, start, end);
    LeadingNewerZero(s, end);
    LeadingNewerZero(s, start - 1);
    if s[1..] != [] {
      LeadingNewerZero(s[1..], end);
      LeadingNewerZero(s[1..], start - 1);
    }
  }

  lemma LeadingNewerZero(s: seq<ArticleTuple>, date: int)
    requires s != [] && s[0].date <= date
    ensures LeadingNewerThan(s, date) == 0
  {
  }

  lemma WithinRangeKeepsHead(s: seq<ArticleTuple>, start: int, end: int)
    requires s != [] && start <= s[0].date <= end
    ensures WithinRange(s, start, end) == [s[0]] + WithinRange(s[1..], start, end)
  {
  }

  lemma PrefixOfTail<T>(s: seq<T>, b: nat)
    requires s != [] && b <= |s| - 1
    ensures s[..b + 1] == [s[0]] + s[1..][..b]
  {
    forall i | 0 <= i < b + 1
      ensures s[..b + 1][i] == ([s[0]] + s[1..][..b])[i]
    {
    }
  }

  lemma SliceOfTail<T>(s: seq<T>, a: nat, b: nat)
    requires s != [] && a <= b <= |s| - 1
    ensures s[a + 1..b + 1] == s[1..][a..b]
  {
    forall i | 0 <= i < b - a
      ensures s[a + 1..b + 1][i] == s[1..][a..b][i]
    {
    }
  }

  /** On a newest-first cache the top-k answer holds the k latest records: none left
      out is newer than any returned. */
  lemma MostRecentKAreNewest(c: Cache, k: int)
    requires NewestFirst(c.articles)
    requires k >= 1
    ensures forall i, j :: 0 <= i < |MostRecentK(c, k).value| <= j < Size(c) ==>
      MostRecentK(c, k).value[i].date >= c.articles[j].date
  {
  }

  /** A three-article archive, newest first. */
  const SampleArchive := Cache("https://example.substack.com", "https://example.substack.com/archive",
    [ArticleTuple(20240310, "A", "/a"), ArticleTuple(20240305, "B", "/b"), ArticleTuple(20240301, "C", "/c")])

  /** On the sample archive a range strictly between stored dates selects the one
      record inside it. */
  lemma SampleArchiveRange()
    ensures ByDateRange(SampleArchive, 20240302, 20240309) == Ok([ArticleTuple(20240305, "B", "/b")])
  {
    var s := SampleArchive.articles;
    WithinRangeSkipsHead(s, 20240302, 20240309);
    assert s[1..] == [s[1], s[2]];
    WithinRangeKeepsHead(s[1..], 20240302, 20240309);
    assert s[1..][1..] == [s[2]];
    WithinRangeSkipsHead(s[1..][1..], 20240302, 20240309);
    assert s[1..][1..][1..] == [];
    assert WithinRange(s[1..][1..], 20240302, 20240309) == [];
    assert WithinRange(s[1..], 20240302, 20240309) == [s[1]];
    assert WithinRange(s, 20240302, 20240309) == [s[1]];
  }

  /** On the sample archive top-2 is the two newest records, the archive is
      newest-first, and an empty cache has no earliest record. */
  lemma SampleArchiveEnds()
    ensures NewestFirst(SampleArchive.articles)
    ensures MostRecentK(SampleArchive, 2) == Ok([ArticleTuple(20240310, "A", "/a"), ArticleTuple(20240305, "B", "/b")])
    ensures Earliest(NewCache("https://example.substack.com")) == Err(EmptyCache)
  {
    var s := SampleArchive.articles;
    assert s[..2] == [s[0], s[1]];
  }

  /** Two records sharing a date both match that date, in stored order. */
  lemma SampleArchiveSameDate()
    ensures
      var b, b2 := ArticleTuple(20240305, "B", "/b"), ArticleTuple(20240305, "B2", "/b2");
      ByDate(SampleArchive.(articles := [b, b2, ArticleTuple(20240301, "C", "/c")]), 20240305) == [b, b2]
  {
    var b, b2, c := ArticleTuple(20240305, "B", "/b"), ArticleTuple(20240305, "B2", "/b2"), ArticleTuple(20240301, "C", "/c");
    var s := [b, b2, c];
    assert s[1..] == [b2, c] && s[1..][1..] == [c] && s[1..][1..][1..] == [];
    assert MatchingDate([c], 20240305) == [];
    assert MatchingDate([b2, c], 20240305) == [b2];
    assert MatchingDate(s, 20240305) == [b, b2];
  }
}

=== FILE: downloader.dfy ===
/**
 The downloader's session state and its two download entry points. A download is
 gated on credentials having been loaded and on a successful sign-in; only then
 is the cache loaded and the selected records handed to the PDF export step,
 which is represented here by the list of records it receives.
 */
module Downloader {
  import opened Errors
  import opened ArticleCache
  import opened Loader

  /** Login credentials; `filled` records whether they were ever set. */
  datatype Credentials = Credentials(username: string, password: string, filled: bool)

  /** Credentials before any are loaded. */
  function NoCredentials(): (c: Credentials)
    ensures !c.filled
    ensures c.username == [] && c.password == []
  {
    Credentials("", "", false)
  }

  /** Stores a username and password; they count as loaded from then on. */
  function SetCredentials(username: string, password: string): (r: Credentials)
    ensures r.filled
    ensures r.username == username && r.password == password
  {
    Credentials(username, password, true)
  }

  /** The state the download operations read and change. */
  datatype Downloader = Downloader(credentials: Credentials, cache: Cache, signedIn: bool)

  /** A downloader for an already validated archive root URL. */
  function NewDownloader(validatedUrl: string): (d: Downloader)
    ensures !d.credentials.filled && !d.signedIn
    ensures IsEmpty(d.cache) && d.cache.rootUrl == validatedUrl
    ensures d.cache == NewCache(validatedUrl) && d.credentials == NoCredentials()
  {
    Downloader(NoCredentials(), NewCache(validatedUrl), false)
  }

  /** Loads credentials; always reports success. */
  function LoadCredentials(d: Downloader, username: string, password: string): (r: (Downloader, bool))
    ensures r.1
    ensures r.0.credentials.filled
    ensures r.0.credentials.username == username && r.0.credentials.password == password
    ensures r.0.cache == d.cache && r.0.signedIn == d.signedIn
  {
    (d.(credentials := SetCredentials(username, password)), true)
  }

  /** Whether each awaited element appeared in time during sign-in: the login link
      after opening the menu, the password-login link after following it, the
      username field after choosing password login, and the article list after
      submitting the credentials. */
  datatype SignInWaits = SignInWaits(loginLink: bool, passwordLink: bool, usernameField: bool, articleList: bool)

  /** The sign-in protocol: each step needs the previous wait to have succeeded, and
      the credentials are checked just before they would be submitted. The outcome
      is recorded as the signed-in flag, replacing any earlier one. */
  function SignIn(d: Downloader, w: SignInWaits): (r: (Downloader, bool))
    ensures r.0 == d.(signedIn := r.1)
    ensures r.1 <==>
      w.loginLink && w.passwordLink && w.usernameField && d.credentials.filled && w.articleList
  {
    if !w.loginLink then (d.(signedIn := false), false)
    else if !w.passwordLink then (d.(signedIn := false), false)
    else if !w.usernameField then (d.(signedIn := false), false)
    else if !d.credentials.filled then (d.(signedIn := false), false)
    else (d.(signedIn := w.articleList), w.articleList)
  }

  /** The download gate. Missing credentials are reported before a missing sign-in. */
  function ReadyToDownload(d: Downloader): (r: Outcome)
    ensures r == Fail(CredentialsNotLoaded) <==> !d.credentials.filled
    ensures r == Fail(NotSignedIn) <==> d.credentials.filled && !d.signedIn
    ensures r == Pass <==> d.credentials.filled && d.signedIn
  {
    if !d.credentials.filled then Fail(CredentialsNotLoaded)
    else if !d.signedIn then Fail(NotSignedIn)
    else Pass
  }

  /** The state after a download, the records handed to the PDF export step, and
      whether the download completed. */
  datatype Download = Download(state: Downloader, exported: seq<ArticleTuple>, outcome: Outcome)

  /** Downloads the k most recent articles: gate, load until k are cached, take the
      first k and export them. */
  function DownloadKMostRecent(d: Downloader, p: Page, k: int): (r: Download)
    ensures ReadyToDownload(d).Fail? ==> r == Download(d, [], ReadyToDownload(d))
    ensures ReadyToDownload(d).Pass? && k < 1 ==> r == Download(d, [], Fail(InvalidCount))
    ensures r.outcome.Pass? <==> d.credentials.filled && d.signedIn && k >= 1 && LoadK(d.cache, p, k).Ok?
    ensures r.outcome.Pass? ==> r.state == d.(cache := LoadK(d.cache, p, k).value.cache)
    ensures r.outcome.Pass? ==> r.exported == r.state.cache.articles[..Min(k, Size(r.state.cache))]
    ensures ReadyToDownload(d).Pass? && k >= 1 && LoadK(d.cache, p, k).Err? ==>
      r == Download(d, [], Fail(LoadK(d.cache, p, k).error))
    ensures r.outcome.Fail? ==> r.state == d && r.exported == []
    ensures r.state.credentials == d.credentials && r.state.signedIn == d.signedIn
    ensures Size(r.state.cache) >= Size(d.cache) && r.state.cache.articles[..Size(d.cache)] == d.cache.articles
  {
    match ReadyToDownload(d)
    case Fail(e) => Download(d, [], Fail(e))
    case Pass =>
      match LoadK(d.cache, p, k)
      case Err(e) => Download(d, [], Fail(e))
      case Ok(l) =>
        match MostRecentK(l.cache, k)
        case Err(e) => Download(d, [], Fail(e))
        case Ok(ts) => Download(d.(cache := l.cache), ts, Pass)
  }

  /** Downloads the articles dated within [start, end]: gate, refuse an inverted
      range, load back to before `start`, filter by range and export. */
  function DownloadDateRange(d: Downloader, p: Page, start: int, end: int): (r: Download)
    ensures ReadyToDownload(d).Fail? ==> r == Download(d, [], ReadyToDownload(d))
    ensures ReadyToDownload(d).Pass? && start > end ==> r == Download(d, [], Fail(InvalidRange))
    ensures r.outcome.Pass? <==>
      d.credentials.filled && d.signedIn && start <= end && LoadAfterStartDate(d.cache, p, start).Ok?
    ensures r.outcome.Pass? ==> r.state == d.(cache := LoadAfterStartDate(d.cache, p, start).value.cache)
    ensures r.outcome.Pass? ==> r.exported == WithinRange(r.state.cache.articles, start, end)
    ensures ReadyToDownload(d).Pass? && start <= end && LoadAfterStartDate(d.cache, p, start).Err? ==>
      r == Download(d, [], Fail(LoadAfterStartDate(d.cache, p, start).error))
    ensures r.outcome.Fail? ==> r.state == d && r.exported == []
    ensures r.state.credentials == d.credentials && r.state.signedIn == d.signedIn
    ensures Size(r.state.cache) >= Size(d.cache) && r.state.cache.articles[..Size(d.cache)] == d.cache.articles
  {
    match ReadyToDownload(d)
    case Fail(e) => Download(d, [], Fail(e))
    case Pass =>
      if start > end then Download(d, [], Fail(InvalidRange))
      else
        match LoadAfterStartDate(d.cache, p, start)
        case Err(e) => Download(d, [], Fail(e))
        case Ok(l) =>
          match ByDateRange(l.cache, start, end)
          case Err(e) => Download(d, [], Fail(e))
          case Ok(ts) => Download(d.(cache := l.cache), ts, Pass)
  }

  // ---------------------------------------------------------------------------
  // Properties of the session
  // ---------------------------------------------------------------------------

  /** The session life cycle: a new downloader refuses both downloads for lack of
      credentials, without loading anything; after loading credentials it refuses
      for lack of a sign-in; signing in with every wait succeeding opens the gate.
      Signing in before loading credentials never succeeds. */
  lemma SessionLifecycle(url: string, username: string, password: string, p: Page, k: int,
                         start: int, end: int, w: SignInWaits)
    ensures
      var d0 := NewDownloader(url);
      && DownloadKMostRecent(d0, p, k) == Download(d0, [], Fail(CredentialsNotLoaded))
      && DownloadDateRange(d0, p, start, end) == Download(d0, [], Fail(CredentialsNotLoaded))
      && !SignIn(d0, w).1
    ensures
      var d1 := LoadCredentials(NewDownloader(url), username, password).0;
      && DownloadKMostRecent(d1, p, k) == Download(d1, [], Fail(NotSignedIn))
      && DownloadDateRange(d1, p, start, end) == Download(d1, [], Fail(NotSignedIn))
      && ReadyToDownload(SignIn(d1, SignInWaits(true, true, true, true)).0) == Pass
  {
  }

  /** A failed sign-in closes the gate even after an earlier successful one. */
  lemma FailedSignInClosesGate(d: Downloader, w: SignInWaits)
    requires !w.articleList
    ensures ReadyToDownload(SignIn(d, w).0).Fail?
  {
  }

  /** Repeating a top-k download once k records are cached loads nothing more and
      exports the same records, whatever the page shows the second time. */
  lemma RepeatDownloadKMostRecent(d: Downloader, p: Page, p': Page, k: int)
    requires DownloadKMostRecent(d, p, k).outcome.Pass?
    requires Size(DownloadKMostRecent(d, p, k).state.cache) >= k
    ensures DownloadKMostRecent(DownloadKMostRecent(d, p, k).state, p', k) == DownloadKMostRecent(d, p, k)
  {
    var r := DownloadKMostRecent(d, p, k);
    var r' := DownloadKMostRecent(r.state, p', k);
    assert LoadK(r.state.cache, p', k) == Ok(Load(r.state.cache, 0));
    assert r'.state == r.state;
  }

  /** A successful date-range download exports every loaded record dated within the
      range as many times as the loaded cache holds it, and nothing else. */
  lemma DateRangeExportsEveryLoadedMatch(d: Downloader, p: Page, start: int, end: int)
    requires DownloadDateRange(d, p, start, end).outcome.Pass?
    ensures
      var r := DownloadDateRange(d, p, start, end);
      forall x :: multiset(r.exported)[x] ==
        if start <= x.date <= end then multiset(r.state.cache.articles)[x] else 0
  {
    var r := DownloadDateRange(d, p, start, end);
    WithinRangeCounts(r.state.cache.articles, start, end);
  }

  /** A date-range download into an empty cache, once the gate is open, exports the
      records loaded at the date loop's first stop that lie within the range. When
      the page lists newest-first there, the export is newest-first and is one
      contiguous run of the loaded page. */
  lemma DateRangeFromEmptyCacheIsOrdered(d: Downloader, p: Page, start: int, end: int, n: nat)
    requires d.credentials.filled && d.signedIn && IsEmpty(d.cache) && start <= end
    requires DateLoopFirstStop(p, start, n)
    requires NewestFirst(p.scrolls[n].visible)
    ensures DownloadDateRange(d, p, start, end).outcome == Pass
    ensures DownloadDateRange(d, p, start, end).state.cache.articles == p.scrolls[n].visible
    ensures NewestFirst(DownloadDateRange(d, p, start, end).exported)
    ensures
      var v := p.scrolls[n].visible;
      DownloadDateRange(d, p, start, end).exported
        == v[LeadingNewerThan(v, end)..LeadingNewerThan(v, start - 1)]
  {
    LoadAfterStartDateAtFirstStop(d.cache, p, start, n);
    var v := p.scrolls[n].visible;
    assert d.cache.articles == [];
    assert LoadAfterStartDate(d.cache, p, start).value.cache.articles == v;
    WithinRangeKeepsNewestFirst(v, start, end);
    WithinRangeIsSlice(v, start, end);
  }
}

=== FILE: errors.dfy ===
/**
 The failures the downloader can report, and the two failure-carrying result
 types used throughout the model.
 */
module Errors {

  /** Every way an operation of the downloader can fail.
      - CredentialsNotLoaded, NotSignedIn: the download gate refused.
      - InvalidRange: a date range whose end precedes its start.
      - InvalidCount: a top-k request with k < 1.
      - IndexOutOfRange: positional access outside the cache.
      - EmptyCache: first/last access on an empty cache.
      - NoArticlePreview: the date-driven scroll found no preview to read a date from.
      - ScrollUnbounded: the page kept growing for as long as it was observed,
        so a scroll loop never reached its stop condition. */
  datatype Error =
    | CredentialsNotLoaded
    | NotSignedIn
    | InvalidRange
    | InvalidCount
    | IndexOutOfRange
    | EmptyCache
    | NoArticlePreview
    | ScrollUnbounded

  /** A value, or the error that prevented computing it. */
  datatype Result<+T> = Ok(value: T) | Err(error: Error)

  /** Success without a value, or an error. */
  datatype Outcome = Pass | Fail(error: Error)
}

=== FILE: loader.dfy ===
/**
 The incremental loader. The archive page is abstracted to an observation: its
 height right after navigation, and for each scroll-to-bottom the height and the
 already-normalised article previews visible afterwards. The two scroll loops
 decide, from these observations alone, after which scroll to stop; the loaders
 guard against reloading and then append every visible preview to the cache.
 */
module Loader {
  import opened Errors
  import opened ArticleCache

  /** What the page shows after one scroll: its content height and the previews,
      top to bottom. */
  datatype Snapshot = Snapshot(height: int, visible: seq<ArticleTuple>)

  /** The archive page as observed after navigating to it: the height before any
      scroll, then one snapshot per scroll, for as many scrolls as are observed. */
  datatype Page = Page(initialHeight: int, scrolls: seq<Snapshot>)

  /** A finished load: the new cache, and how many scroll actions it took (0 when
      the guard short-circuited). */
  datatype Load = Load(cache: Cache, scrolls: nat)

  function LastVisible(s: Snapshot): ArticleTuple
    requires s.visible != []
  {
    s.visible[|s.visible| - 1]
  }

  /** The height the count-driven loop compares the i-th snapshot against: the
      height before the first scroll, and afterwards the height after the previous
      scroll. */
  function HeightBefore(p: Page, i: nat): int
    requires i <= |p.scrolls|
  {
    if i == 0 then p.initialHeight else p.scrolls[i - 1].height
  }

  /** Stop condition of the count-driven loop: the page did not grow, or at least k
      previews are visible. */
  predicate CountLoopStops(before: int, s: Snapshot, k: int)
  {
    s.height == before || |s.visible| >= k
  }

  /** Stop condition of the date-driven loop: the page did not grow, or the last
      visible preview is strictly older than the target date. */
  predicate DateLoopStops(before: int, s: Snapshot, target: int)
    requires s.visible != []
  {
    s.height == before || target > LastVisible(s).date
  }

  /** The date-driven loop goes on past scroll j: a preview is visible there and the
      stop condition, measured against the height right after navigation, fails. */
  predicate DateLoopContinues(p: Page, target: int, j: nat)
    requires j < |p.scrolls|
  {
    p.scrolls[j].visible != [] && !DateLoopStops(p.initialHeight, p.scrolls[j], target)
  }

  /** Scroll n is where the date-driven loop stops: every earlier scroll lets it go
      on, and scroll n shows a preview and meets the stop condition. */
  predicate DateLoopFirstStop(p: Page, target: int, n: nat)
  {
    && n < |p.scrolls|
    && p.scrolls[n].visible != []
    && DateLoopStops(p.initialHeight, p.scrolls[n], target)
    && forall j :: 0 <= j < n ==> DateLoopContinues(p, target, j)
  }

  /** The count-driven loop from scroll i on. It compares each scroll's height with
      the height it last recorded, which is `HeightBefore(p, i)`. The result is the
      index of the scroll after which it stops. */
  function ScrollUntilKFrom(p: Page, k: int, i: nat): (r: Result<nat>)
    requires i <= |p.scrolls|
    ensures r.Ok? ==> i <= r.value < |p.scrolls|
    ensures r.Ok? ==> CountLoopStops(HeightBefore(p, r.value), p.scrolls[r.value], k)
    ensures r.Ok? ==> forall j :: i <= j < r.value ==> !CountLoopStops(HeightBefore(p, j), p.scrolls[j], k)
    ensures r.Err? <==> forall j :: i <= j < |p.scrolls| ==> !CountLoopStops(HeightBefore(p, j), p.scrolls[j], k)
    ensures r.Err? ==> r.error == ScrollUnbounded
    decreases |p.scrolls| - i
  {
    if i == |p.scrolls| then Err(ScrollUnbounded)
    else
      var s := p.scrolls[i];
      if CountLoopStops(HeightBefore(p, i), s, k) then Ok(i)
      else ScrollUntilKFrom(p, k, i + 1)
  }

  /** Scrolls until k previews are visible or the page stops growing. */
  function ScrollUntilK(p: Page, k: int): (r: Result<nat>)
    ensures r.Ok? ==> r.value < |p.scrolls|
    ensures r.Ok? ==> CountLoopStops(HeightBefore(p, r.value), p.scrolls[r.value], k)
    ensures r.Ok? ==> forall j :: 0 <= j < r.value ==> !CountLoopStops(HeightBefore(p, j), p.scrolls[j], k)
    ensures r.Err? <==> forall j :: 0 <= j < |p.scrolls| ==> !CountLoopStops(HeightBefore(p, j), p.scrolls[j], k)
    ensures r.Err? ==> r.error == ScrollUnbounded
  {
    ScrollUntilKFrom(p, k, 0)
  }

  /** The date-driven loop from scroll i on. It reads the last visible preview before
      testing anything, so a snapshot without previews is an error; and it always
      compares against the height right after navigation. */
  function ScrollUntilDateFrom(p: Page, target: int, i: nat): (r: Result<nat>)
    requires i <= |p.scrolls|
    ensures r.Ok? ==> i <= r.value < |p.scrolls|
    ensures r.Ok? ==> p.scrolls[r.value].visible != []
    ensures r.Ok? ==> DateLoopStops(p.initialHeight, p.scrolls[r.value], target)
    ensures r.Ok? ==> forall j :: i <= j < r.value ==> DateLoopContinues(p, target, j)
    ensures r == Err(ScrollUnbounded) <==> forall j :: i <= j < |p.scrolls| ==> DateLoopContinues(p, target, j)
    ensures forall n ::
      (i <= n < |p.scrolls| && p.scrolls[n].visible == [] &&
       forall j :: i <= j < n ==> DateLoopContinues(p, target, j))
      ==> r == Err(NoArticlePreview)
    ensures r.Err? ==> r.error == ScrollUnbounded || r.error == NoArticlePreview
    decreases |p.scrolls| - i
  {
    if i == |p.scrolls| then Err(ScrollUnbounded)
    else
      var s := p.scrolls[i];
      if s.visible == [] then
        assert !DateLoopContinues(p, target, i);
        Err(NoArticlePreview)
      else if DateLoopStops(p.initialHeight, s, target) then
        assert !DateLoopContinues(p, target, i);
        Ok(i)
      else ScrollUntilDateFrom(p, target, i + 1)
  }

  /** Scrolls until the last visible preview is older than `target` or the page is
      back at its initial height. */
  function ScrollUntilDate(p: Page, target: int): (r: Result<nat>)
    ensures r.Ok? ==> r.value < |p.scrolls| && p.scrolls[r.value].visible != []
    ensures r.Ok? ==> DateLoopStops(p.initialHeight, p.scrolls[r.value], target)
    ensures r.Ok? ==> forall j :: 0 <= j < r.value ==> DateLoopContinues(p, target, j)
    ensures r == Err(ScrollUnbounded) <==> forall j :: 0 <= j < |p.scrolls| ==> DateLoopContinues(p, target, j)
    ensures forall n ::
      (0 <= n < |p.scrolls| && p.scrolls[n].visible == [] &&
       forall j :: 0 <= j < n ==> DateLoopContinues(p, target, j))
      ==> r == Err(NoArticlePreview)
    ensures r.Err? ==> r.error == ScrollUnbounded || r.error == NoArticlePreview
  {
    ScrollUntilDateFrom(p, target, 0)
  }

  /** Appends the previews one by one, in presented order, with no check against
      what the cache already holds. */
  function AppendAll(c: Cache, previews: seq<ArticleTuple>): (r: Cache)
    ensures r.articles == c.articles + previews
    ensures r.rootUrl == c.rootUrl && r.archiveUrl == c.archiveUrl
    decreases |previews|
  {
    if previews == [] then c
    else
      var t := previews[0];
      AppendAll(Append(c, t.date, t.title, t.url), previews[1..])
  }

  /** Appends every preview the page currently shows. */
  function LoadAllVisible(c: Cache, s: Snapshot): (r: Cache)
    ensures Size(r) == Size(c) + |s.visible|
    ensures r.articles[..Size(c)] == c.articles
    ensures r.articles[Size(c)..] == s.visible
  {
    AppendAll(c, s.visible)
  }

  /** Ensures the cache holds k records: nothing happens when it already does;
      otherwise the page is scrolled and all visible previews are appended. */
  function LoadK(c: Cache, p: Page, k: int): (r: Result<Load>)
    ensures Size(c) >= k ==> r == Ok(Load(c, 0))
    ensures Size(c) < k && r.Ok? ==> 1 <= r.value.scrolls <= |p.scrolls|
    ensures Size(c) < k && r.Ok? ==>
      var n := r.value.scrolls - 1;
      && CountLoopStops(HeightBefore(p, n), p.scrolls[n], k)
      && (forall j :: 0 <= j < n ==> !CountLoopStops(HeightBefore(p, j), p.scrolls[j], k))
      && r.value.cache.articles == c.articles + p.scrolls[n].visible
    ensures r.Err? <==> Size(c) < k && forall j :: 0 <= j < |p.scrolls| ==> !CountLoopStops(HeightBefore(p, j), p.scrolls[j], k)
    ensures r.Err? ==> r.error == ScrollUnbounded
    ensures r.Ok? ==> r.value.cache == c.(articles := r.value.cache.articles)
  {
    if Size(c) >= k then Ok(Load(c, 0))
    else
      match ScrollUntilK(p, k)
      case Err(e) => Err(e)
      case Ok(n) => Ok(Load(LoadAllVisible(c, p.scrolls[n]), n + 1))
  }

  /** Ensures the cache reaches back before `start`: nothing happens when its last
      record is already older; otherwise the page is scrolled and all visible
      previews are appended. */
  function LoadAfterStartDate(c: Cache, p: Page, start: int): (r: Result<Load>)
    ensures r == Ok(Load(c, 0)) <==> !IsEmpty(c) && c.articles[Size(c) - 1].date < start
    ensures r.Ok? && !(!IsEmpty(c) && c.articles[Size(c) - 1].date < start) ==> r.value.scrolls > 0
    ensures r.Ok? && r.value.scrolls > 0 ==>
      && DateLoopFirstStop(p, start, r.value.scrolls - 1)
      && r.value.cache.articles == c.articles + p.scrolls[r.value.scrolls - 1].visible
    ensures r == Err(ScrollUnbounded) <==>
      !(!IsEmpty(c) && c.articles[Size(c) - 1].date < start) &&
      forall j :: 0 <= j < |p.scrolls| ==> DateLoopContinues(p, start, j)
    ensures r.Err? ==> r.error == ScrollUnbounded || r.error == NoArticlePreview
    ensures r.Ok? ==> r.value.cache == c.(articles := r.value.cache.articles)
  {
    if !IsEmpty(c) && Earliest(c).value.date < start then Ok(Load(c, 0))
    else
      match ScrollUntilDate(p, start)
      case Err(e) => Err(e)
      case Ok(n) =>
        assert DateLoopFirstStop(p, start, n);
        Ok(Load(LoadAllVisible(c, p.scrolls[n]), n + 1))
  }

  // ---------------------------------------------------------------------------
  // Properties of the loader
  // ---------------------------------------------------------------------------

  /** Appending a newest-first batch whose first preview is no newer than the cache's
      last record keeps the cache newest-first. */
  lemma AppendAllKeepsNewestFirst(c: Cache, previews: seq<ArticleTuple>)
    requires NewestFirst(c.articles) && NewestFirst(previews)
    requires IsEmpty(c) || previews == [] || c.articles[Size(c) - 1].date >= previews[0].date
    ensures NewestFirst(AppendAll(c, previews).articles)
  {
    NewestFirstConcat(c.articles, previews);
  }

  /** Loading into an empty cache stores exactly the previews visible where the count
      loop stopped, so a page listing newest-first yields a newest-first cache. */
  lemma LoadKIntoEmptyCache(c: Cache, p: Page, k: int, l: Load)
    requires IsEmpty(c) && k >= 1
    requires LoadK(c, p, k) == Ok(l)
    requires forall j :: 0 <= j < |p.scrolls| ==> NewestFirst(p.scrolls[j].visible)
    ensures 1 <= l.scrolls <= |p.scrolls|
    ensures l.cache.articles == p.scrolls[l.scrolls - 1].visible
    ensures NewestFirst(l.cache.articles)
  {
    var v := p.scrolls[l.scrolls - 1].visible;
    assert c.articles == [];
    assert l.cache.articles == [] + v;
  }

  /** A second load for the same k after the cache has reached k records does no
      scrolling and changes nothing, whatever the page shows then. */
  lemma LoadKIsIdempotentOnceFilled(c: Cache, p: Page, p': Page, k: int)
    requires LoadK(c, p, k).Ok?
    requires Size(LoadK(c, p, k).value.cache) >= k
    ensures LoadK(LoadK(c, p, k).value.cache, p', k) == Ok(Load(LoadK(c, p, k).value.cache, 0))
  {
  }

  /** Reloading re-appends what is already cached. When the page presents the cached
      records again (it is re-opened from the top), a load on a non-empty cache that
      holds fewer than k records stores them twice, and the cache stays newest-first
      only if all its records share one date. */
  lemma LoadKReappendsCachedRecords(c: Cache, p: Page, k: int)
    requires 0 < Size(c) < k
    requires LoadK(c, p, k).Ok?
    requires
      var v := p.scrolls[LoadK(c, p, k).value.scrolls - 1].visible;
      |v| >= Size(c) && v[..Size(c)] == c.articles
    ensures
      var r := LoadK(c, p, k).value.cache.articles;
      |r| >= 2 * Size(c) && r[..Size(c)] == c.articles && r[Size(c)..2 * Size(c)] == c.articles
    ensures NewestFirst(LoadK(c, p, k).value.cache.articles) ==>
      c.articles[0].date == c.articles[Size(c) - 1].date
  {
    var n := Size(c);
    var l := LoadK(c, p, k).value;
    var v := p.scrolls[l.scrolls - 1].visible;
    var r := l.cache.articles;
    assert r == c.articles + v;
    assert r[n..2 * n] == v[..n];
    if NewestFirst(r) {
      assert r[n - 1] == c.articles[n - 1] && r[n] == c.articles[0];
      assert r[0] == c.articles[0];
      assert r[0].date >= r[n - 1].date;
    }
  }

  /** The date-driven loop started at or before its first stop returns that stop. */
  lemma {:induction false} ScrollUntilDateFromFindsFirstStop(p: Page, target: int, i: nat, n: nat)
    requires i <= n
    requires DateLoopFirstStop(p, target, n)
    ensures ScrollUntilDateFrom(p, target, i) == Ok(n)
    decreases n - i
  {
    var s := p.scrolls[i];
    if i < n {
      assert DateLoopContinues(p, target, i);
      assert s.visible != [] && !(s.height == p.initialHeight || target > LastVisible(s).date);
      ScrollUntilDateFromFindsFirstStop(p, target, i + 1, n);
    } else {
      assert s.visible != [] && (s.height == p.initialHeight || target > LastVisible(s).date);
    }
  }

  /** The date-driven loop returns scroll n exactly when n is its first stop. */
  lemma ScrollUntilDateIsFirstStop(p: Page, target: int, n: nat)
    ensures ScrollUntilDate(p, target) == Ok(n) <==> DateLoopFirstStop(p, target, n)
  {
    if DateLoopFirstStop(p, target, n) {
      ScrollUntilDateFromFindsFirstStop(p, target, 0, n);
    }
  }

  /** A date load whose guard does not short-circuit, on a page that first stops the
      date loop at scroll n, scrolls n + 1 times and appends the previews visible
      there. */
  lemma LoadAfterStartDateAtFirstStop(c: Cache, p: Page, start: int, n: nat)
    requires IsEmpty(c) || c.articles[Size(c) - 1].date >= start
    requires DateLoopFirstStop(p, start, n)
    ensures LoadAfterStartDate(c, p, start).Ok?
    ensures LoadAfterStartDate(c, p, start).value.scrolls == n + 1
    ensures LoadAfterStartDate(c, p, start).value.cache.articles == c.articles + p.scrolls[n].visible
  {
    if !IsEmpty(c) {
      assert Earliest(c) == Ok(c.articles[Size(c) - 1]);
    }
    ScrollUntilDateIsFirstStop(p, start, n);
    assert ScrollUntilDate(p, start) == Ok(n);
    assert LoadAfterStartDate(c, p, start) == Ok(Load(LoadAllVisible(c, p.scrolls[n]), n + 1));
  }

  /** A failed date load reports the date loop's own error: a scroll that showed no
      previews, or a loop that never stops. */
  lemma LoadAfterStartDateReportsLoopError(c: Cache, p: Page, start: int)
    ensures LoadAfterStartDate(c, p, start).Err? ==>
      ScrollUntilDate(p, start) == Err(LoadAfterStartDate(c, p, start).error)
  {
  }

  /** When the guard does not short-circuit, the date load succeeds exactly when the
      date loop has a first stop among the observed scrolls. */
  lemma LoadAfterStartDateOkIffFirstStop(c: Cache, p: Page, start: int)
    requires IsEmpty(c) || c.articles[Size(c) - 1].date >= start
    ensures LoadAfterStartDate(c, p, start).Ok? <==> exists n: nat :: DateLoopFirstStop(p, start, n)
  {
    var r := LoadAfterStartDate(c, p, start);
    if r.Ok? {
      assert DateLoopFirstStop(p, start, r.value.scrolls - 1);
    }
    if exists n: nat :: DateLoopFirstStop(p, start, n) {
      var n: nat :| DateLoopFirstStop(p, start, n);
      LoadAfterStartDateAtFirstStop(c, p, start, n);
    }
  }

  /** After such a load, a second date load with the same start is a no-op exactly
      when the first one stopped on a preview older than the start; when it stopped
      only because the height matched, the second load scrolls and appends again. */
  lemma LoadAfterStartDateSecondCall(c: Cache, p: Page, p': Page, start: int, n: nat)
    requires IsEmpty(c) || c.articles[Size(c) - 1].date >= start
    requires DateLoopFirstStop(p, start, n)
    ensures LoadAfterStartDate(c, p, start).Ok?
    ensures
      var l := LoadAfterStartDate(c, p, start).value;
      (LoadAfterStartDate(l.cache, p', start) == Ok(Load(l.cache, 0)))
        <==> LastVisible(p.scrolls[n]).date < start
  {
    LoadAfterStartDateAtFirstStop(c, p, start, n);
    var l := LoadAfterStartDate(c, p, start).value;
    var v := p.scrolls[n].visible;
    LastOfConcat(c.articles, v);
    assert !IsEmpty(l.cache) && l.cache.articles[Size(l.cache) - 1] == LastVisible(p.scrolls[n]);
  }

  lemma LastOfConcat<T>(a: seq<T>, b: seq<T>)
    requires b != []
    ensures (a + b)[|a + b| - 1] == b[|b| - 1]
  {
  }

  /** The two loops treat a page that has stopped growing differently. After one
      scroll grows the page, further scrolls leave its height unchanged: the count
      loop stops at the second scroll, but the date loop, which keeps comparing with
      the height before the first scroll, goes on for as long as the last visible
      preview is not older than the target. */
  lemma {:induction false} DateLoopMissesSettledPage(p: Page, k: int, target: int)
    requires |p.scrolls| >= 2
    requires p.scrolls[0].height != p.initialHeight
    requires forall j :: 0 <= j < |p.scrolls| ==> p.scrolls[j].height == p.scrolls[0].height
    requires forall j :: 0 <= j < |p.scrolls| ==> 0 < |p.scrolls[j].visible| < k
    requires forall j :: 0 <= j < |p.scrolls| ==> LastVisible(p.scrolls[j]).date >= target
    ensures ScrollUntilK(p, k) == Ok(1)
    ensures ScrollUntilDate(p, target) == Err(ScrollUnbounded)
  {
    assert HeightBefore(p, 1) == p.scrolls[1].height;
    assert !CountLoopStops(HeightBefore(p, 0), p.scrolls[0], k);
    forall j | 0 <= j < |p.scrolls|
      ensures DateLoopContinues(p, target, j)
    {
      assert p.scrolls[j].height != p.initialHeight;
    }
  }
}
